=== FILE: README.md ===
# ComponentManager lifecycle orchestrator, modelled in Dafny

This project models `ComponentManager`, the lifecycle orchestrator of the
Component-Manager repository. It is a single manager object. It discovers
the components of an application and drives them through
`initialize()`, `start()` and `shutdown()`. It keeps a registry of the
components by name and publishes each component's management beans on a
bean server. It answers three queries: `getComponent`, `getMBeanInfo` and
`getAttribute`.

Files:

- `wrappers.dfy`: `Option`.
- `components.dfy`: the `Component` interface as data. Each callback
  (`init`, `start`, `shutdown`) either completes or throws. `getMBeans()`
  returns null, throws, or returns its entries in iteration order. Each
  entry also records how the bean server reacts when it is published.
- `lifecycle.dfy`: the `NextStep` state machine
  (INITIALIZE → START → STOP → DEAD) and two lemmas about every history
  of states: it only moves forward, and it changes state at most three
  times.
- `registration.dfy`: what `initialize()` does to the registry and the
  bean server, written as pure functions. `InitSweep` follows the loop one
  component at a time. `Clean`, `ByName`, `PublishAll` and `NameSeq`
  describe the outcome without the loop. The lemmas connect the two and
  state the failure-isolation rules.
- `manager.dfy`: the class `ComponentManager`. Its fields are the state,
  the initialized flag, the component map and the bean server. Its methods
  are proved against the functions of `registration.dfy`. Three ghost logs
  (`initCalls`, `startCalls`, `shutdownCalls`) record which components each
  callback was called on. Three client scenarios replay an extended form
  of the repository's lifecycle test and two failure cases. The lifecycle
  scenario and the failed-start scenario are split into phase methods that
  act on one manager.

Points of the code's behaviour that the model keeps, and that a reader
might not expect:

- A `start()` whose component throws leaves the state at START.
  The advance at line 186 of `ComponentManager.java` comes after the loop,
  so the exception skips it, and a later `shutdown()` is refused.
- `initialize()` after DEAD returns silently. The guard at lines 108-110
  tests only the initialized flag, which nothing clears.
- A failed `initialize()` keeps every component registered and every bean
  published before the failure. The state is not advanced (lines 165-166
  are skipped), so `initialize()` may be called again. When the first
  component was registered (its `init()` completed and its name was free),
  a second call on the same components then fails on that component's
  name (lines 132-135).
- A `getMBeans()` that throws aborts `initialize()`, after the component
  has been put in the registry. The call at line 143 sits outside the
  per-entry try/catch of lines 147-159, which isolates only the unregister
  and register steps of each entry.

## Model

| member | source | states |
|---|---|---|
| Lifecycle.Next | src/main/java/com/linkedin/listt/component/ComponentManager.java:43-55 | `getNextState()` has no successor exactly for DEAD, and every other state's successor is the next one along INITIALIZE → START → STOP → DEAD |
| Lifecycle.HistoryIsForward | src/main/java/com/linkedin/listt/component/ComponentManager.java:43-55 | In any history where each step keeps the state or moves to its successor, the rank never decreases and a state left is never revisited |
| Lifecycle.ForwardMoves | src/main/java/com/linkedin/listt/component/ComponentManager.java:43-55 | In any such history, the number of steps that change the state equals the rank gained from first to last state, so it is at most three |
| Registration.SweepFromIsInitSweep | src/main/java/com/linkedin/listt/component/ComponentManager.java:124-138 | The loop in the form it runs, carrying the registries and the init log, computes the same sweep as the component-by-component definition |
| Registration.InitSweepKeeps | src/main/java/com/linkedin/listt/component/ComponentManager.java:132-138 | Whether it succeeds or fails, the sweep never removes or replaces a registration that existed before it |
| Registration.InitSweepAdds | src/main/java/com/linkedin/listt/component/ComponentManager.java:126-138 | Every new registry entry is one of the supplied components, filed under its own name |
| Registration.InitSweepSucceedsIff | src/main/java/com/linkedin/listt/component/ComponentManager.java:124-162 | `initialize()`'s loop completes exactly when every `init()` completes, no `getMBeans()` throws, and the names are pairwise distinct and not already registered. Bean publication never makes it fail |
| Registration.InitSweepOk | src/main/java/com/linkedin/listt/component/ComponentManager.java:124-162 | A successful sweep calls `init()` on every component in order, files each under its name, and publishes every component's beans in order |
| Registration.ByNameKeys | src/main/java/com/linkedin/listt/component/ComponentManager.java:138 | After the components are filed by name, the registry's names are the old ones plus the components' names |
| Registration.ByNameLookup | src/main/java/com/linkedin/listt/component/ComponentManager.java:132-138 | With distinct new names, filing keeps every old entry and each component is found under its own name |
| Registration.InitSweepAborts | src/main/java/com/linkedin/listt/component/ComponentManager.java:124-143 | A sweep that stops at component j fails with the reason j gives: init threw, name taken, or `getMBeans()` threw, in that priority. Components before j stay registered and their beans stay published. Component j is registered only when `getMBeans()` was the failure. `init()` ran on components 0..j |
| Registration.FirstFailure | src/main/java/com/linkedin/listt/component/ComponentManager.java:124-143 | Every failing sweep has a first failing component: all components before it are acceptable, and it is not |
| Registration.PublishFrame | src/main/java/com/linkedin/listt/component/ComponentManager.java:145-160 | Publishing a component's beans leaves every object name that none of its entries carries untouched |
| Registration.PublishLastWriter | src/main/java/com/linkedin/listt/component/ComponentManager.java:146-159 | Failures are isolated per entry. Unless a later entry reuses its name, an entry that registers leaves its bean under its name whatever other entries do. A failed register leaves the name empty. A failed unregister keeps what was there before |
| Registration.InitSweepServerFrame | src/main/java/com/linkedin/listt/component/ComponentManager.java:143-160 | The whole sweep leaves every object name that no component publishes untouched |
| Registration.InitSweepPublishes | src/main/java/com/linkedin/listt/component/ComponentManager.java:140-160 | Failures are isolated across components. After a successful `initialize()`, a bean whose entry registers is on the server under its name, whatever the other entries and the other components' beans do, unless a later entry or component reuses the name |
| Registration.RetryAfterFailure | src/main/java/com/linkedin/listt/component/ComponentManager.java:105-138 | A failed sweep keeps its registrations. When the first component was registered (its `init()` completed and its name was free; a throwing `getMBeans()` comes after the insertion), re-running the sweep over the same components fails with a duplicate-name error on that first component |
| Manager.EnumeratesCount | src/main/java/com/linkedin/listt/component/ComponentManager.java:176-183 | An iteration that lists every registered name exactly once makes exactly as many calls as there are registered components; `Start` (on success) and `Shutdown` use it for their call-count ensures |
| Manager.ComponentManager.constructor | src/main/java/com/linkedin/listt/component/ComponentManager.java:30-38 | A new manager is uninitialized in state INITIALIZE with an empty registry over the given bean server, and no callback has been called |
| Manager.ComponentManager.GetComponent | src/main/java/com/linkedin/listt/component/ComponentManager.java:72-81 | Refused exactly when not initialized or DEAD. Otherwise it answers the registered component, or nothing (null) for an unknown name |
| Manager.ComponentManager.GetMBeanInfo | src/main/java/com/linkedin/listt/component/ComponentManager.java:83-92 | Refused exactly when not initialized or DEAD. Instance-not-found exactly when no bean has that name. Otherwise it answers the bean's attribute names |
| Manager.ComponentManager.GetAttribute | src/main/java/com/linkedin/listt/component/ComponentManager.java:94-103 | Refused exactly when not initialized or DEAD. Instance-not-found and attribute-not-found exactly in their cases. Otherwise it answers the attribute's value |
| Manager.ComponentManager.PublishMBeans | src/main/java/com/linkedin/listt/component/ComponentManager.java:143-161 | The loop over one component's entries leaves the server as the per-entry publication function says |
| Manager.ComponentManager.RegisterComponent | src/main/java/com/linkedin/listt/component/ComponentManager.java:125-161 | One turn of the initialize loop gives the status, registry, server and init log of one step of the sweep function |
| Manager.ComponentManager.RegisterComponents | src/main/java/com/linkedin/listt/component/ComponentManager.java:124-162 | The loop over all components gives the status, registry, server and init log of the sweep function, stopping at the first failure |
| Manager.ComponentManager.Initialize | src/main/java/com/linkedin/listt/component/ComponentManager.java:105-168 | A no-op once initialized. Otherwise it runs the sweep and moves to START only on success. It succeeds exactly when the components are Clean. On success every component's `init()` ran in order, each is found by `getComponent` under its name, and the beans are published |
| Manager.ComponentManager.Start | src/main/java/com/linkedin/listt/component/ComponentManager.java:170-188 | Refused outside START. Otherwise it calls `start()` on distinct registered components. It succeeds exactly when every registered component's start completes, and then has called each exactly once, making as many calls as there are registered components, and moved to STOP. On failure it stops at the first throwing component, names it, and stays in START |
| Manager.ComponentManager.Shutdown | src/main/java/com/linkedin/listt/component/ComponentManager.java:190-214 | Refused outside STOP. Otherwise it calls `shutdown()` on every registered component exactly once, making as many calls as there are registered components, and absorbs exactly the failures of the components whose `shutdown()` throws. It always succeeds and ends in DEAD, where the queries are refused |
| Manager.LifecycleScenario | src/test/java/com/linkedin/listt/component/TestComponentManager.java:37-71 | The repository's test, extended with a second `initialize()` and with calls after shutdown. After initialize and start, the dummy component is found and its DummyConfig bean exposes a readable `Count`. The second `initialize()` returns normally and changes nothing. After shutdown the query and `start()` are refused, and `initialize()` is silently ignored |
| Manager.FailedStartScenario | src/main/java/com/linkedin/listt/component/ComponentManager.java:170-214 | When component B's `start()` throws, `start()` fails naming B and the state stays START, so `shutdown()` is refused |
| Manager.FailedInitializeScenario | src/main/java/com/linkedin/listt/component/ComponentManager.java:105-138 | When B's `init()` throws after A was registered, `initialize()` fails naming B. The second call fails on A's name, and queries stay refused |

## Left out

- Discovery by classpath scanning (Reflections and `newInstance`) is not modelled. `Initialize` takes the discovered components as a sequence in iteration order.
- The iteration order of `HashMap` and `HashSet` is not modelled. `Start` and `Shutdown` choose the next name nondeterministically and return the order as a ghost value. The order of a component's bean entries is the order of its sequence.
- `ObjectName` parsing and `MalformedObjectNameException` are not modelled. Object names are plain strings, so a malformed name in a query or in `getMBeans()` is not modelled.
- A component's bean entries are a sequence, not a map. The source's `getMBeans()` returns a `Map`, so its object names are distinct within one component. The model also admits repeated names, and `PublishLastWriter` and `InitSweepPublishes` state what happens then ("unless a later entry reuses the name"). For the source's maps, that condition always holds within one component.
- The JMX server's exception kinds are reduced to three per-entry outcomes: registers, unregister throws something other than "not found", and register throws.
- `MBeanInfo` introspection is reduced to the set of attribute names, and attribute values to integers.
- Components' own state is not modelled. A published bean is a value, not an object the component keeps and changes, so a component's callbacks cannot change what the server reports.
- LifecycleScenario: states only that `Count` is readable, not that it reads 111. In the repository's test, the component's `start()` sets 111 on the bean object it published, and the model has no such aliasing.
- Logging is not modelled.
- `synchronized`, `volatile` and the static singleton instance are not modelled. The model is one sequential manager object, and the static `isInitialized` flag is a field of it.
- Exceptions thrown by callbacks are statuses, not exception objects. The one thrown by `getComponent`'s guard names the wrong operation in its message, and messages are not modelled.

=== FILE: components.dfy ===
/**
 * The component contract (Component.java) as abstract data.
 *
 * A component is described by its name and by how each of its callbacks
 * behaves when the manager invokes it: init(), start() and shutdown()
 * either complete or throw, and getMBeans() either returns null, throws,
 * or returns a map from object name to management bean. Each entry of that
 * map also records how the management-bean server reacts when the manager
 * publishes it.
 */
module Components {

  /** What a callback does when it is called. */
  datatype Outcome = Completes | Throws

  /** A management bean, seen through its readable attributes. */
  datatype MBean = MBean(attributes: map<string, int>)

  /**
   * How publishing one entry goes: the stale registration under the same
   * name is removed (a missing one is ignored) and the new bean is
   * registered; either step may throw instead.
   */
  datatype RegisterOutcome =
    | Registers        // unregister (or nothing to unregister), then register
    | UnregisterThrows // unregister fails with something other than "not found"
    | RegisterThrows   // unregister succeeds, register fails

  datatype MBeanEntry = MBeanEntry(objectName: string, bean: MBean, outcome: RegisterOutcome)

  /**
   * The result of getMBeans(): null, an exception, or the entries in
   * iteration order. The source returns a map, so its entries carry
   * distinct object names; this sequence also admits repeated names, a
   * case the lemmas about publication cover with their "no later entry
   * reuses the name" conditions.
   */
  datatype MBeans =
    | MBeansNull
    | MBeansThrow
    | MBeansMap(entries: seq<MBeanEntry>)

  datatype Component = Component(
    name: string,
    init: Outcome,
    start: Outcome,
    shutdown: Outcome,
    mbeans: MBeans)

  /** The object names a component asks to publish. */
  function Published(c: Component): set<string>
  {
    match c.mbeans
    case MBeansMap(entries) => set e | e in entries :: e.objectName
    case _ => {}
  }
}

=== FILE: lifecycle.dfy ===
/**
 * The manager's lifecycle state machine (the NextStep enum of
 * ComponentManager.java): INITIALIZE -> START -> STOP -> DEAD, where each
 * state names the one operation that may be called next and DEAD has no
 * successor.
 */
module Lifecycle {
  import opened Wrappers

  datatype NextStep = Initialize | Start | Stop | Dead

  /** Position of a state along the chain. */
  function Rank(s: NextStep): nat
  {
    match s
    case Initialize => 0
    case Start => 1
    case Stop => 2
    case Dead => 3
  }

  /** getNextState(): the successor, or null (None) for DEAD. */
  function Next(s: NextStep): (r: Option<NextStep>)
    ensures r.None? <==> s == Dead
    ensures r.Some? ==> Rank(r.value) == Rank(s) + 1
  {
    match s
    case Initialize => Some(Start)
    case Start => Some(Stop)
    case Stop => Some(Dead)
    case Dead => None
  }

  /** One operation leaves the state where it was or moves it one step forward. */
  predicate Advances(before: NextStep, after: NextStep)
  {
    after == before || Next(before) == Some(after)
  }

  /** Rank determines the state, so the successor given by Next is the only state one rank up. */
  lemma RankInjective(s: NextStep, t: NextStep)
    requires Rank(s) == Rank(t)
    ensures s == t
  {
  }

  /**
   * Along any history of states in which every operation only advances,
   * the rank never decreases, each state is reached at most once in a row
   * (no state is revisited after it has been left).
   */
  lemma {:induction false} HistoryIsForward(h: seq<NextStep>)
    requires forall i | 0 <= i < |h| - 1 :: Advances(h[i], h[i + 1])
    ensures forall i, j | 0 <= i <= j < |h| :: Rank(h[i]) <= Rank(h[j])
    ensures forall i, j | 0 <= i < j < |h| && h[i] == h[j] ::
              forall k | i <= k <= j :: h[k] == h[i]
  {
    if |h| > 1 {
      HistoryIsForward(h[1..]);
      assert forall i | 0 <= i < |h| - 1 :: h[1..][i] == h[i + 1];
      forall i, j | 0 <= i <= j < |h|
        ensures Rank(h[i]) <= Rank(h[j])
      {
        if i > 0 {
          assert h[i] == h[1..][i - 1] && h[j] == h[1..][j - 1];
        } else if j > 0 {
          assert Advances(h[0], h[1]);
          assert h[1] == h[1..][0] && h[j] == h[1..][j - 1];
        }
      }
      forall i, j | 0 <= i < j < |h| && h[i] == h[j]
        ensures forall k | i <= k <= j :: h[k] == h[i]
      {
        forall k | i <= k <= j
          ensures h[k] == h[i]
        {
          assert Rank(h[i]) <= Rank(h[k]) <= Rank(h[j]);
          RankInjective(h[k], h[i]);
        }
      }
    }
  }

  /** The number of steps of the history h that change the state. */
  function Moves(h: seq<NextStep>): nat
    decreases |h|
  {
    if |h| < 2 then 0
    else (if h[0] != h[1] then 1 else 0) + Moves(h[1..])
  }

  /**
   * Along any history in which every operation only advances, each change
   * of state gains exactly one rank, so the history changes state as many
   * times as it gains rank, and at most three times in all.
   */
  lemma {:induction false} ForwardMoves(h: seq<NextStep>)
    requires |h| > 0
    requires forall i | 0 <= i < |h| - 1 :: Advances(h[i], h[i + 1])
    ensures Moves(h) == Rank(h[|h| - 1]) - Rank(h[0])
    ensures Moves(h) <= 3
    decreases |h|
  {
    if |h| > 1 {
      assert forall i | 0 <= i < |h| - 1 :: h[1..][i] == h[i + 1];
      ForwardMoves(h[1..]);
      assert Advances(h[0], h[1]);
      assert h[1..][|h[1..]| - 1] == h[|h| - 1];
    }
  }
}

=== FILE: manager.dfy ===
/**
 * The lifecycle orchestrator (class ComponentManager): one instance holding
 * the lifecycle state, the component registry and the management-bean
 * server, driving the supplied components through init, start and
 * shutdown.
 *
 * The component calls a method makes are recorded in three ghost logs
 * (initCalls, startCalls, shutdownCalls, each a sequence of component
 * names), so that contracts can say which components were reached.
 */
module Manager {
  import opened Wrappers
  import opened Components
  import opened Lifecycle
  import opened Registration

  /** How a query ends: with an answer, or with the exception it raises. */
  datatype QueryResult<T> =
    | Answer(value: T)
    | Illegal            // IllegalStateException from the query guard
    | InstanceNotFound   // no bean is registered under the object name
    | AttributeNotFound  // the bean has no attribute of that name

  predicate Distinct(names: seq<string>)
  {
    forall i, j | 0 <= i < j < |names| :: names[i] != names[j]
  }

  /** names lists every element of keys exactly once. */
  predicate Enumerates(names: seq<string>, keys: set<string>)
  {
    Distinct(names) && (forall n | n in names :: n in keys) && (forall n | n in keys :: n in names)
  }

  /** A sweep that enumerates the registry calls each registered component exactly once. */
  lemma {:induction false} EnumeratesCount(names: seq<string>, keys: set<string>)
    requires Enumerates(names, keys)
    ensures |names| == |keys|
    decreases |names|
  {
    if names != [] {
      var n, rest := names[0], names[1..];
      forall m | m in rest ensures m != n {
        var i :| 0 <= i < |rest| && rest[i] == m;
        assert names[i + 1] == m;
      }
      assert forall i, j | 0 <= i < j < |rest| :: rest[i] == names[i + 1] && rest[j] == names[j + 1];
      assert forall m | m in keys - {n} :: m in names && m != n;
      EnumeratesCount(rest, keys - {n});
    }
  }

  class ComponentManager {
    var nextAllowedState: NextStep
    var isInitialized: bool
    var componentMap: map<string, Component>
    var mbeanServer: map<string, MBean>
    ghost var initCalls: seq<string>
    ghost var startCalls: seq<string>
    ghost var shutdownCalls: seq<string>

    /** The flag and the state agree, and every component sits under its own name. */
    ghost predicate Valid()
      reads this
    {
      && (isInitialized <==> nextAllowedState != NextStep.Initialize)
      && forall n | n in componentMap :: componentMap[n].name == n
    }

    /** A fresh manager over a management-bean server that may already hold beans. */
    constructor (server: map<string, MBean>)
      ensures Valid()
      ensures nextAllowedState == NextStep.Initialize && !isInitialized
      ensures componentMap == map[] && mbeanServer == server
      ensures initCalls == [] && startCalls == [] && shutdownCalls == []
    {
      nextAllowedState := NextStep.Initialize;
      isInitialized := false;
      componentMap := map[];
      mbeanServer := server;
      initCalls, startCalls, shutdownCalls := [], [], [];
    }

    /** The guard shared by the three queries: initialized and not yet dead. */
    predicate QueryAllowed()
      reads this
    {
      isInitialized && nextAllowedState != NextStep.Dead
    }

    /** getComponent: the registered component, None (null) for an unknown name. */
    function GetComponent(name: string): (r: QueryResult<Option<Component>>)
      reads this
      ensures r.Illegal? <==> !QueryAllowed()
      ensures r.Answer? || r.Illegal?
      ensures r.Answer? ==> (r.value.Some? <==> name in componentMap)
      ensures r.Answer? && r.value.Some? ==> r.value.value == componentMap[name]
    {
      if !QueryAllowed() then Illegal
      else if name in componentMap then Answer(Some(componentMap[name]))
      else Answer(None)
    }

    /** getMBeanInfo: the attribute names of the bean under objectName. */
    function GetMBeanInfo(objectName: string): (r: QueryResult<set<string>>)
      reads this
      ensures r.Illegal? <==> !QueryAllowed()
      ensures r.InstanceNotFound? <==> QueryAllowed() && objectName !in mbeanServer
      ensures r.Answer? ==> objectName in mbeanServer && r.value == mbeanServer[objectName].attributes.Keys
      ensures !r.AttributeNotFound?
    {
      if !QueryAllowed() then Illegal
      else if objectName !in mbeanServer then InstanceNotFound
      else Answer(mbeanServer[objectName].attributes.Keys)
    }

    /** getAttribute: the value of one attribute of the bean under objectName. */
    function GetAttribute(objectName: string, attribute: string): (r: QueryResult<int>)
      reads this
      ensures r.Illegal? <==> !QueryAllowed()
      ensures r.InstanceNotFound? <==> QueryAllowed() && objectName !in mbeanServer
      ensures r.AttributeNotFound? <==>
        QueryAllowed() && objectName in mbeanServer && attribute !in mbeanServer[objectName].attributes
      ensures r.Answer? ==> r.value == mbeanServer[objectName].attributes[attribute]
    {
      if !QueryAllowed() then Illegal
      else if objectName !in mbeanServer then InstanceNotFound
      else if attribute !in mbeanServer[objectName].attributes then AttributeNotFound
      else Answer(mbeanServer[objectName].attributes[attribute])
    }

    /**
     * Publishes one component's beans. Each entry first unregisters the
     * stale bean under its name (a missing one is ignored) and then
     * registers the new one; a failure in either step is caught and only
     * that entry is affected.
     */
    method PublishMBeans(entries: seq<MBeanEntry>)
      modifies this`mbeanServer
      ensures mbeanServer == Publish(old(mbeanServer), entries)
    {
      var i := 0;
      while i < |entries|
        invariant 0 <= i <= |entries|
        invariant Publish(old(mbeanServer), entries) == Publish(mbeanServer, entries[i..])
      {
        var e := entries[i];
        assert entries[i..][0] == e && entries[i..][1..] == entries[i + 1..];
        ghost var before := mbeanServer;
        if e.outcome != UnregisterThrows {
          mbeanServer := mbeanServer - {e.objectName};
          if e.outcome == Registers {
            mbeanServer := mbeanServer[e.objectName := e.bean];
          }
        }
        assert mbeanServer == PublishEntry(before, e);
        i := i + 1;
      }
    }

    /**
     * The body of initialize()'s loop for one component: init() (recorded
     * whatever it does), the duplicate-name check, the insertion, and the
     * publication of the beans returned by getMBeans().
     */
    method RegisterComponent(c: Component) returns (status: Status)
      modifies this`componentMap, this`mbeanServer, this`initCalls
      ensures var turn := Accept(old(componentMap), old(mbeanServer), c);
        && status == turn.status
        && componentMap == turn.registry && mbeanServer == turn.server
        && initCalls == old(initCalls) + turn.inits
    {
      initCalls := initCalls + [c.name];
      if c.init == Throws {
        return InitFailed(c.name);
      }
      if c.name in componentMap {
        return DuplicateName(c.name);
      }
      componentMap := componentMap[c.name := c];
      match c.mbeans {
        case MBeansThrow =>
          return MBeansFailed(c.name);
        case MBeansNull =>
        case MBeansMap(entries) =>
          PublishMBeans(entries);
      }
      status := Ok;
    }

    /**
     * The loop of initialize() over the supplied components, in the order
     * given, stopping at the first failure that propagates.
     */
    method RegisterComponents(comps: seq<Component>) returns (status: Status)
      modifies this`componentMap, this`mbeanServer, this`initCalls
      ensures var r := InitSweep(old(componentMap), old(mbeanServer), comps);
        && status == r.status
        && componentMap == r.registry && mbeanServer == r.server
        && initCalls == old(initCalls) + r.inits
    {
      ghost var whole := SweepFrom(Sweep(Ok, componentMap, mbeanServer, []), comps);
      ghost var spec := InitSweep(componentMap, mbeanServer, comps);
      SweepFromIsInitSweep(Sweep(Ok, componentMap, mbeanServer, []), comps);
      assert [] + spec.inits == spec.inits;
      assert whole == spec;
      ghost var done: seq<string> := [];
      var pending := comps;
      while pending != []
        invariant initCalls == old(initCalls) + done
        invariant whole == SweepFrom(Sweep(Ok, componentMap, mbeanServer, done), pending)
        decreases |pending|
      {
        ghost var turn := Accept(componentMap, mbeanServer, pending[0]);
        status := RegisterComponent(pending[0]);
        done := done + turn.inits;
        if status != Ok {
          return;
        }
        pending := pending[1..];
      }
      status := Ok;
    }

    /**
     * initialize(): a no-op once initialized; otherwise runs the sweep over
     * the supplied components and, only if it succeeds, moves to START.
     * A failed call keeps whatever it registered before the failure.
     */
    method Initialize(comps: seq<Component>) returns (status: Status)
      requires Valid()
      modifies this
      ensures Valid()
      ensures Advances(old(nextAllowedState), nextAllowedState)
      ensures old(isInitialized) ==> status == Ok && unchanged(this)
      ensures !old(isInitialized) ==>
        var r := InitSweep(old(componentMap), old(mbeanServer), comps);
        && status == r.status
        && componentMap == r.registry && mbeanServer == r.server
        && initCalls == old(initCalls) + r.inits
        && startCalls == old(startCalls) && shutdownCalls == old(shutdownCalls)
        && isInitialized == (status == Ok)
        && nextAllowedState == (if status == Ok then NextStep.Start else NextStep.Initialize)
      ensures !old(isInitialized) ==> (status == Ok <==> Clean(old(componentMap), comps))
      ensures !old(isInitialized) && status == Ok ==>
        && initCalls == old(initCalls) + NameSeq(comps)
        && componentMap.Keys == old(componentMap).Keys + (set c | c in comps :: c.name)
        && mbeanServer == PublishAll(old(mbeanServer), comps)
        && forall i | 0 <= i < |comps| :: GetComponent(comps[i].name) == Answer(Some(comps[i]))
    {
      if isInitialized {
        return Ok;
      }
      InitSweepSucceedsIff(componentMap, mbeanServer, comps);
      if Clean(componentMap, comps) {
        InitSweepOk(componentMap, mbeanServer, comps);
        ByNameLookup(componentMap, comps);
        ByNameKeys(componentMap, comps);
      }
      InitSweepKeeps(componentMap, mbeanServer, comps);
      InitSweepAdds(componentMap, mbeanServer, comps);
      status := RegisterComponents(comps);
      if status == Ok {
        nextAllowedState := Next(nextAllowedState).value;
        isInitialized := true;
      }
    }

    /**
     * start(): legal only in START. Calls start() on the registered
     * components in the registry's iteration order and stops at the first
     * one that throws, leaving the state at START; after a full sweep the
     * state moves to STOP.
     */
    method Start() returns (status: Status, ghost order: seq<string>)
      requires Valid()
      modifies this
      ensures Valid()
      ensures Advances(old(nextAllowedState), nextAllowedState)
      ensures componentMap == old(componentMap) && mbeanServer == old(mbeanServer)
      ensures isInitialized == old(isInitialized)
      ensures initCalls == old(initCalls) && shutdownCalls == old(shutdownCalls)
      ensures startCalls == old(startCalls) + order
      ensures old(nextAllowedState) != NextStep.Start ==>
        status == IllegalState && order == [] && nextAllowedState == old(nextAllowedState)
      ensures old(nextAllowedState) == NextStep.Start ==>
        && (status == Ok <==> forall n | n in componentMap :: componentMap[n].start == Completes)
        && nextAllowedState == (if status == Ok then NextStep.Stop else NextStep.Start)
        && Distinct(order) && (forall n | n in order :: n in componentMap)
        && (status == Ok ==> Enumerates(order, componentMap.Keys) && |order| == |componentMap|)
        && (status != Ok ==>
              && order != []
              && status == StartFailed(order[|order| - 1])
              && componentMap[order[|order| - 1]].start == Throws
              && forall k | 0 <= k < |order| - 1 :: componentMap[order[k]].start == Completes)
    {
      order := [];
      if nextAllowedState != NextStep.Start {
        return IllegalState, order;
      }
      var remaining := componentMap.Keys;
      while remaining != {}
        invariant remaining <= componentMap.Keys
        invariant Distinct(order)
        invariant forall n | n in order :: n in componentMap && n !in remaining
        invariant forall n | n in componentMap :: n in order || n in remaining
        invariant forall k | 0 <= k < |order| :: componentMap[order[k]].start == Completes
        invariant startCalls == old(startCalls) + order
        invariant componentMap == old(componentMap) && mbeanServer == old(mbeanServer)
        invariant isInitialized == old(isInitialized) && nextAllowedState == old(nextAllowedState)
        invariant initCalls == old(initCalls) && shutdownCalls == old(shutdownCalls)
        decreases remaining
      {
        var name :| name in remaining;
        order := order + [name];
        startCalls := startCalls + [name];
        if componentMap[name].start == Throws {
          return StartFailed(name), order;
        }
        remaining := remaining - {name};
      }
      EnumeratesCount(order, componentMap.Keys);
      nextAllowedState := Next(nextAllowedState).value;
      status := Ok;
    }

    /**
     * shutdown(): legal only in STOP. Calls shutdown() on every registered
     * component, catching each failure, and always ends in DEAD. The
     * components whose shutdown() threw are returned in absorbed.
     */
    method Shutdown() returns (status: Status, ghost order: seq<string>, ghost absorbed: seq<string>)
      requires Valid()
      modifies this
      ensures Valid()
      ensures Advances(old(nextAllowedState), nextAllowedState)
      ensures componentMap == old(componentMap) && mbeanServer == old(mbeanServer)
      ensures isInitialized == old(isInitialized)
      ensures initCalls == old(initCalls) && startCalls == old(startCalls)
      ensures shutdownCalls == old(shutdownCalls) + order
      ensures old(nextAllowedState) != NextStep.Stop ==>
        status == IllegalState && order == [] && absorbed == [] && nextAllowedState == old(nextAllowedState)
      ensures old(nextAllowedState) == NextStep.Stop ==>
        && status == Ok
        && nextAllowedState == NextStep.Dead
        && Enumerates(order, componentMap.Keys)
        && |order| == |componentMap|
        && (forall n | n in absorbed :: n in componentMap && componentMap[n].shutdown == Throws)
        && (forall n | n in componentMap && componentMap[n].shutdown == Throws :: n in absorbed)
        && !QueryAllowed()
    {
      order, absorbed := [], [];
      if nextAllowedState != NextStep.Stop {
        return IllegalState, order, absorbed;
      }
      var remaining := componentMap.Keys;
      while remaining != {}
        invariant remaining <= componentMap.Keys
        invariant Distinct(order)
        invariant forall n | n in order :: n in componentMap && n !in remaining
        invariant forall n | n in componentMap :: n in order || n in remaining
        invariant shutdownCalls == old(shutdownCalls) + order
        invariant forall n | n in absorbed :: n in order && componentMap[n].shutdown == Throws
        invariant forall n | n in order && componentMap[n].shutdown == Throws :: n in absorbed
        invariant componentMap == old(componentMap) && mbeanServer == old(mbeanServer)
        invariant isInitialized == old(isInitialized) && nextAllowedState == old(nextAllowedState)
        invariant initCalls == old(initCalls) && startCalls == old(startCalls)
        decreases remaining
      {
        var name :| name in remaining;
        order := order + [name];
        shutdownCalls := shutdownCalls + [name];
        if componentMap[name].shutdown == Throws {
          // Caught and logged; the sweep goes on.
          absorbed := absorbed + [name];
        }
        remaining := remaining - {name};
      }
      EnumeratesCount(order, componentMap.Keys);
      nextAllowedState := Next(nextAllowedState).value;
      status := Ok;
    }
  }

  /** The component of the repository's own test, with its DummyConfig bean. */
  const DummyName: string := "com.linkedin.listt.component.TestComponentManager$DummyComponent"
  const DummyObjectName: string := "com.linkedin.listt.component:type=DummyConfig"

  function DummyComponent(): Component
  {
    Component(DummyName, Completes, Completes, Completes,
              MBeansMap([MBeanEntry(DummyObjectName, MBean(map["Count" := 0]), Registers)]))
  }

  /**
   * The repository's lifecycle test (initialize, start, look the component
   * and its bean up, shut down), extended with a second initialize() before
   * start(), which is ignored, and with calls after shutdown: the query and
   * start() are refused while initialize() is still silently ignored.
   */
  method LifecycleScenario() returns (second: Status, found: QueryResult<Option<Component>>,
                                      info: QueryResult<set<string>>,
                                      count: QueryResult<int>,
                                      afterShutdown: QueryResult<Option<Component>>,
                                      restart: Status, reinit: Status)
    ensures second == Ok
    ensures found == Answer(Some(DummyComponent()))
    ensures info == Answer({"Count"})
    ensures count.Answer?
    ensures afterShutdown == Illegal
    ensures restart == IllegalState
    ensures reinit == Ok
  {
    var m := new ComponentManager(map[]);
    second := InitializeDummy(m);
    found, info, count := StartAndQueryDummy(m);
    afterShutdown, restart, reinit := ShutDownAndRetry(m);
  }

  /** The first phase of LifecycleScenario: initialize() twice; the second call is ignored. */
  method InitializeDummy(m: ComponentManager) returns (second: Status)
    requires m.Valid() && !m.isInitialized && m.componentMap == map[] && m.mbeanServer == map[]
    modifies m
    ensures second == Ok
    ensures m.Valid() && m.isInitialized && m.nextAllowedState == NextStep.Start
    ensures m.componentMap == map[DummyName := DummyComponent()]
    ensures m.mbeanServer == map[DummyObjectName := MBean(map["Count" := 0])]
  {
    var first := m.Initialize([DummyComponent()]);
    assert first == Ok;
    assert m.mbeanServer == Publish(map[], DummyComponent().mbeans.entries);
    assert m.componentMap.Keys == {DummyName};
    second := m.Initialize([DummyComponent()]);
  }

  /** The second phase of LifecycleScenario: start(), then the three queries. */
  method StartAndQueryDummy(m: ComponentManager)
    returns (found: QueryResult<Option<Component>>, info: QueryResult<set<string>>, count: QueryResult<int>)
    requires m.Valid() && m.isInitialized && m.nextAllowedState == NextStep.Start
    requires m.componentMap == map[DummyName := DummyComponent()]
    requires m.mbeanServer == map[DummyObjectName := MBean(map["Count" := 0])]
    modifies m
    ensures found == Answer(Some(DummyComponent()))
    ensures info == Answer({"Count"})
    ensures count.Answer?
    ensures m.Valid() && m.isInitialized && m.nextAllowedState == NextStep.Stop
  {
    var status;
    ghost var order;
    status, order := m.Start();
    assert status == Ok;
    found := m.GetComponent(DummyName);
    assert map["Count" := 0].Keys == {"Count"};
    info := m.GetMBeanInfo(DummyObjectName);
    count := m.GetAttribute(DummyObjectName, "Count");
  }

  /** The last phase of LifecycleScenario: shutdown(), then calls that DEAD refuses or ignores. */
  method ShutDownAndRetry(m: ComponentManager)
    returns (afterShutdown: QueryResult<Option<Component>>, restart: Status, reinit: Status)
    requires m.Valid() && m.isInitialized && m.nextAllowedState == NextStep.Stop
    modifies m
    ensures afterShutdown == Illegal
    ensures restart == IllegalState
    ensures reinit == Ok
  {
    var status;
    ghost var order, absorbed;
    status, order, absorbed := m.Shutdown();
    afterShutdown := m.GetComponent(DummyName);
    restart, order := m.Start();
    reinit := m.Initialize([DummyComponent()]);
  }


  /**
   * A component whose start() throws makes start() fail and leaves the
   * state at START, so shutdown() is then refused.
   */
  method FailedStartScenario() returns (started: Status, stopped: Status)
    ensures started == StartFailed("B")
    ensures stopped == IllegalState
  {
    var a := Component("A", Completes, Completes, Completes, MBeansNull);
    var b := Component("B", Completes, Throws, Completes, MBeansNull);
    var m := new ComponentManager(map[]);
    var status := m.Initialize([a, b]);
    assert status == Ok;
    assert (set c | c in [a, b] :: c.name) == {"A", "B"} by {
      assert a in [a, b] && b in [a, b];
    }
    assert m.GetComponent("A") == Answer(Some(a)) && m.GetComponent("B") == Answer(Some(b));
    started, stopped := StartThenShutdown(m, a, b);
  }

  /** The second phase of FailedStartScenario, over the registry {A, B} where only B's start() throws. */
  method StartThenShutdown(m: ComponentManager, a: Component, b: Component)
    returns (started: Status, stopped: Status)
    requires m.Valid() && m.isInitialized && m.nextAllowedState == NextStep.Start
    requires m.componentMap.Keys == {"A", "B"}
    requires m.componentMap["A"] == a && a.start == Completes
    requires m.componentMap["B"] == b && b.start == Throws
    modifies m
    ensures started == StartFailed("B")
    ensures stopped == IllegalState
  {
    ghost var order, absorbed;
    started, order := m.Start();
    assert started != Ok by {
      assert "B" in m.componentMap && m.componentMap["B"].start == Throws;
    }
    ghost var last := order[|order| - 1];
    assert last in m.componentMap.Keys && m.componentMap[last].start == Throws;
    stopped, order, absorbed := m.Shutdown();
  }


  /**
   * A failed initialize() keeps the components registered before the
   * failure, so calling it again over the same components fails on the
   * first one's name; the queries stay refused throughout.
   */
  method FailedInitializeScenario() returns (first: Status, second: Status,
                                             query: QueryResult<Option<Component>>)
    ensures first == InitFailed("B")
    ensures second == DuplicateName("A")
    ensures query == Illegal
  {
    var a := Component("A", Completes, Completes, Completes, MBeansNull);
    var b := Component("B", Throws, Completes, Completes, MBeansNull);
    var m := new ComponentManager(map[]);
    first := m.Initialize([a, b]);
    second := m.Initialize([a, b]);
    query := m.GetComponent("A");
  }
}

=== FILE: registration.dfy ===
/**
 * What initialize() does to the two registries, as pure functions.
 *
 * InitSweep follows the loop of ComponentManager.initialize() one
 * component at a time: call init(), refuse a name that is already
 * registered, insert the component, then publish its management beans one
 * entry at a time. The other functions here (Clean, ByName, PublishAll,
 * NameSeq) describe the outcome independently, and the lemmas connect the
 * two descriptions.
 */
module Registration {
  import opened Components

  /** How a call on the manager ends: normally, or with the exception it raises. */
  datatype Status =
    | Ok
    | IllegalState              // IllegalStateException from a lifecycle guard
    | InitFailed(name: string)  // a component's init() threw
    | DuplicateName(name: string) // IllegalArgumentException: name already registered
    | MBeansFailed(name: string)  // a component's getMBeans() threw
    | StartFailed(name: string) // a component's start() threw

  /** The registries after the sweep, how it ended, and the components whose init() ran. */
  datatype Sweep = Sweep(
    status: Status,
    registry: map<string, Component>,
    server: map<string, MBean>,
    inits: seq<string>)

  /** Publishing one entry: unregister the stale bean, then register the new one. */
  function PublishEntry(server: map<string, MBean>, e: MBeanEntry): map<string, MBean>
  {
    match e.outcome
    case Registers => server[e.objectName := e.bean]
    case UnregisterThrows => server
    case RegisterThrows => server - {e.objectName}
  }

  /** Publishing a component's entries in order, each failure caught on its own. */
  function Publish(server: map<string, MBean>, entries: seq<MBeanEntry>): map<string, MBean>
    decreases |entries|
  {
    if entries == [] then server
    else Publish(PublishEntry(server, entries[0]), entries[1..])
  }

  /** Publishing what getMBeans() returned; a null map publishes nothing. */
  function PublishBeans(server: map<string, MBean>, mbeans: MBeans): map<string, MBean>
  {
    match mbeans
    case MBeansMap(entries) => Publish(server, entries)
    case _ => server
  }

  /**
   * One turn of initialize()'s loop, for component c: init(), the
   * duplicate-name check, the insertion, and the publication of the beans
   * returned by getMBeans(). The status is Ok when the loop goes on.
   */
  function Accept(registry: map<string, Component>, server: map<string, MBean>, c: Component): Sweep
  {
    if c.init == Throws then Sweep(InitFailed(c.name), registry, server, [c.name])
    else if c.name in registry then Sweep(DuplicateName(c.name), registry, server, [c.name])
    else if c.mbeans.MBeansThrow? then Sweep(MBeansFailed(c.name), registry[c.name := c], server, [c.name])
    else Sweep(Ok, registry[c.name := c], PublishBeans(server, c.mbeans), [c.name])
  }

  /** The loop of initialize() over the discovered components, up to the first failure. */
  function InitSweep(registry: map<string, Component>, server: map<string, MBean>,
                     comps: seq<Component>): Sweep
    decreases |comps|
  {
    if comps == [] then Sweep(Ok, registry, server, [])
    else
      var turn := Accept(registry, server, comps[0]);
      if turn.status != Ok then turn
      else
        var rest := InitSweep(turn.registry, turn.server, comps[1..]);
        rest.(inits := turn.inits + rest.inits)
  }

  /**
   * The same loop in the shape initialize() runs it: the registries and the
   * inits so far are carried along in acc, and the rest of the components
   * are still pending.
   */
  function SweepFrom(acc: Sweep, pending: seq<Component>): Sweep
    decreases |pending|
  {
    if pending == [] then acc
    else
      var turn := Accept(acc.registry, acc.server, pending[0]);
      var acc' := turn.(inits := acc.inits + turn.inits);
      if turn.status != Ok then acc' else SweepFrom(acc', pending[1..])
  }

  /** Carrying an accumulator computes the same sweep. */
  lemma {:induction false} SweepFromIsInitSweep(acc: Sweep, pending: seq<Component>)
    requires acc.status == Ok
    ensures var r := InitSweep(acc.registry, acc.server, pending);
      SweepFrom(acc, pending) == r.(inits := acc.inits + r.inits)
    decreases |pending|
  {
    if pending != [] {
      var turn := Accept(acc.registry, acc.server, pending[0]);
      if turn.status == Ok {
        var acc' := turn.(inits := acc.inits + turn.inits);
        SweepFromIsInitSweep(acc', pending[1..]);
        var rest := InitSweep(turn.registry, turn.server, pending[1..]);
        assert acc'.inits + rest.inits == acc.inits + (turn.inits + rest.inits);
      }
    }
  }

  /** Whatever happens, initialize() keeps every registration it found. */
  lemma {:induction false} InitSweepKeeps(registry: map<string, Component>,
                                          server: map<string, MBean>, comps: seq<Component>)
    ensures var r := InitSweep(registry, server, comps);
      && registry.Keys <= r.registry.Keys
      && forall n | n in registry :: r.registry[n] == registry[n]
    decreases |comps|
  {
    if comps != [] {
      var c := comps[0];
      if Admissible(registry, c) {
        InitSweepKeeps(registry[c.name := c], PublishBeans(server, c.mbeans), comps[1..]);
      }
    }
  }

  /** Everything initialize() adds is one of the supplied components, under its own name. */
  lemma {:induction false} InitSweepAdds(registry: map<string, Component>,
                                         server: map<string, MBean>, comps: seq<Component>)
    ensures var r := InitSweep(registry, server, comps);
      forall n | n in r.registry && n !in registry :: r.registry[n] in comps && r.registry[n].name == n
    decreases |comps|
  {
    if comps != [] {
      var c := comps[0];
      if Admissible(registry, c) {
        InitSweepAdds(registry[c.name := c], PublishBeans(server, c.mbeans), comps[1..]);
        InitSweepKeeps(registry[c.name := c], PublishBeans(server, c.mbeans), comps[1..]);
        assert forall x | x in comps[1..] :: x in comps;
      }
    }
  }

  /** A component the sweep accepts given the registry built so far. */
  predicate Admissible(registry: map<string, Component>, c: Component)
  {
    c.init == Completes && c.name !in registry && !c.mbeans.MBeansThrow?
  }

  /**
   * The condition for initialize() to succeed, stated without the loop:
   * every init() completes, no getMBeans() throws, and the names are
   * pairwise distinct and not registered already.
   */
  predicate Clean(registry: map<string, Component>, comps: seq<Component>)
  {
    (forall i | 0 <= i < |comps| ::
       comps[i].init == Completes && !comps[i].mbeans.MBeansThrow? && comps[i].name !in registry)
    && (forall i, j | 0 <= i < j < |comps| :: comps[i].name != comps[j].name)
  }

  /** The registry with each component of comps put under its name, in order. */
  function ByName(registry: map<string, Component>, comps: seq<Component>): map<string, Component>
    decreases |comps|
  {
    if comps == [] then registry
    else ByName(registry[comps[0].name := comps[0]], comps[1..])
  }

  /** The server after publishing the beans of each component of comps, in order. */
  function PublishAll(server: map<string, MBean>, comps: seq<Component>): map<string, MBean>
    decreases |comps|
  {
    if comps == [] then server
    else PublishAll(PublishBeans(server, comps[0].mbeans), comps[1..])
  }

  /** The names of comps, in order. */
  function NameSeq(comps: seq<Component>): seq<string>
    decreases |comps|
  {
    if comps == [] then [] else [comps[0].name] + NameSeq(comps[1..])
  }

  /** Clean, split at its first component. */
  lemma CleanCons(registry: map<string, Component>, comps: seq<Component>)
    requires comps != []
    ensures Clean(registry, comps) <==>
      Admissible(registry, comps[0]) && Clean(registry[comps[0].name := comps[0]], comps[1..])
  {
  }

  /**
   * initialize() succeeds exactly when the components are Clean; the
   * outcome of publishing a bean never makes it fail.
   */
  lemma {:induction false} InitSweepSucceedsIff(registry: map<string, Component>,
                                                server: map<string, MBean>, comps: seq<Component>)
    ensures InitSweep(registry, server, comps).status == Ok <==> Clean(registry, comps)
    decreases |comps|
  {
    if comps != [] {
      var c := comps[0];
      CleanCons(registry, comps);
      if Admissible(registry, c) {
        InitSweepSucceedsIff(registry[c.name := c], PublishBeans(server, c.mbeans), comps[1..]);
      }
    }
  }

  /**
   * A successful initialize() has called init() on every component in the
   * supplied order, put each under its name, and published all their beans.
   */
  lemma {:induction false} InitSweepOk(registry: map<string, Component>,
                                       server: map<string, MBean>, comps: seq<Component>)
    requires Clean(registry, comps)
    ensures InitSweep(registry, server, comps) ==
      Sweep(Ok, ByName(registry, comps), PublishAll(server, comps), NameSeq(comps))
    decreases |comps|
  {
    if comps != [] {
      var c := comps[0];
      CleanCons(registry, comps);
      InitSweepOk(registry[c.name := c], PublishBeans(server, c.mbeans), comps[1..]);
    }
  }

  /** ByName registers exactly the old names and the names of comps. */
  lemma {:induction false} ByNameKeys(registry: map<string, Component>, comps: seq<Component>)
    ensures ByName(registry, comps).Keys == registry.Keys + set c | c in comps :: c.name
    decreases |comps|
  {
    if comps != [] {
      var c, rest := comps[0], comps[1..];
      ByNameKeys(registry[c.name := c], rest);
      assert forall x :: x in comps <==> x == c || x in rest;
    }
  }

  /**
   * With distinct names not registered yet, ByName keeps the old entries
   * and holds every component under its own name.
   */
  lemma {:induction false} ByNameLookup(registry: map<string, Component>, comps: seq<Component>)
    requires Clean(registry, comps)
    ensures forall n | n in registry :: n in ByName(registry, comps) && ByName(registry, comps)[n] == registry[n]
    ensures forall i | 0 <= i < |comps| ::
      comps[i].name in ByName(registry, comps) && ByName(registry, comps)[comps[i].name] == comps[i]
    decreases |comps|
  {
    if comps != [] {
      var c, rest := comps[0], comps[1..];
      CleanCons(registry, comps);
      ByNameLookup(registry[c.name := c], rest);
      forall i | 0 < i < |comps|
        ensures comps[i].name in ByName(registry, comps) && ByName(registry, comps)[comps[i].name] == comps[i]
      {
        assert comps[i] == rest[i - 1];
      }
    }
  }

  /**
   * A sweep that stops at comps[j] -- its init() throws, its name is
   * already in the registry built so far, or its getMBeans() throws -- has
   * called init() on comps[..j+1], keeps every registration made before,
   * and leaves comps[j] registered only when getMBeans() was the failure.
   */
  lemma {:induction false} InitSweepAborts(registry: map<string, Component>,
                                           server: map<string, MBean>,
                                           comps: seq<Component>, j: nat)
    requires j < |comps|
    requires Clean(registry, comps[..j])
    requires !Admissible(ByName(registry, comps[..j]), comps[j])
    ensures var r := InitSweep(registry, server, comps);
      && r.status == (if comps[j].init == Throws then InitFailed(comps[j].name)
                      else if comps[j].name in ByName(registry, comps[..j]) then DuplicateName(comps[j].name)
                      else MBeansFailed(comps[j].name))
      && r.registry == ByName(registry, if r.status.MBeansFailed? then comps[..j + 1] else comps[..j])
      && r.server == PublishAll(server, comps[..j])
      && r.inits == NameSeq(comps[..j + 1])
    decreases j
  {
    var c, rest := comps[0], comps[1..];
    assert comps[..j + 1][0] == c && comps[..j + 1][1..] == rest[..j];
    if j > 0 {
      CleanCons(registry, comps[..j]);
      assert comps[..j][0] == c && comps[..j][1..] == rest[..j - 1];
      assert rest[j - 1] == comps[j];
      InitSweepAborts(registry[c.name := c], PublishBeans(server, c.mbeans), rest, j - 1);
    } else {
      assert NameSeq(comps[..1]) == [c.name] + NameSeq([]);
      assert ByName(registry, comps[..1]) == ByName(registry[c.name := c], []);
    }
  }

  /** Publishing never touches a name that none of its entries carries. */
  lemma {:induction false} PublishFrame(server: map<string, MBean>, entries: seq<MBeanEntry>, n: string)
    requires forall e | e in entries :: e.objectName != n
    ensures n in Publish(server, entries) <==> n in server
    ensures n in server ==> Publish(server, entries)[n] == server[n]
    decreases |entries|
  {
    if entries != [] {
      assert forall e | e in entries[1..] :: e in entries;
      PublishFrame(PublishEntry(server, entries[0]), entries[1..], n);
    }
  }

  /**
   * Failure isolation within one component: the fate of entries[j]'s name
   * is decided by entries[j] alone when no later entry reuses that name,
   * whatever the other entries do. A registered bean ends up under its
   * name; a failed register leaves the name empty; a failed unregister
   * keeps what was there before entries[j].
   */
  lemma {:induction false} PublishLastWriter(server: map<string, MBean>, entries: seq<MBeanEntry>, j: nat)
    requires j < |entries|
    requires forall i | j < i < |entries| :: entries[i].objectName != entries[j].objectName
    ensures var n, after := entries[j].objectName, Publish(server, entries);
      && (entries[j].outcome == Registers ==> n in after && after[n] == entries[j].bean)
      && (entries[j].outcome == RegisterThrows ==> n !in after)
      && (entries[j].outcome == UnregisterThrows ==>
            var before := Publish(server, entries[..j]);
            (n in after <==> n in before) && (n in before ==> after[n] == before[n]))
    decreases j
  {
    var rest := entries[1..];
    if j == 0 {
      forall e | e in rest ensures e.objectName != entries[0].objectName {
        var i :| 0 <= i < |rest| && rest[i] == e;
        assert entries[i + 1] == e;
      }
      PublishFrame(PublishEntry(server, entries[0]), rest, entries[0].objectName);
    } else {
      assert entries[..j][0] == entries[0] && entries[..j][1..] == rest[..j - 1];
      assert forall i | j - 1 < i < |rest| :: rest[i] == entries[i + 1];
      PublishLastWriter(PublishEntry(server, entries[0]), rest, j - 1);
    }
  }

  /** A sweep never touches a name that none of the components publishes. */
  lemma {:induction false} InitSweepServerFrame(registry: map<string, Component>,
                                                server: map<string, MBean>,
                                                comps: seq<Component>, n: string)
    requires forall c | c in comps :: n !in Published(c)
    ensures n in InitSweep(registry, server, comps).server <==> n in server
    ensures n in server ==> InitSweep(registry, server, comps).server[n] == server[n]
    decreases |comps|
  {
    if comps != [] {
      var c := comps[0];
      if c.mbeans.MBeansMap? {
        assert n !in Published(c);
        PublishFrame(server, c.mbeans.entries, n);
      }
      assert forall c' | c' in comps[1..] :: c' in comps;
      InitSweepServerFrame(registry[c.name := c], PublishBeans(server, c.mbeans), comps[1..], n);
    }
  }

  /**
   * Every failing sweep fails at a first component: the one before which
   * everything was Clean and which the registry built so far does not
   * admit. InitSweepAborts then says what that failure leaves behind.
   */
  lemma {:induction false} FirstFailure(registry: map<string, Component>, comps: seq<Component>)
    returns (j: nat)
    requires !Clean(registry, comps)
    ensures j < |comps|
    ensures Clean(registry, comps[..j])
    ensures !Admissible(ByName(registry, comps[..j]), comps[j])
    decreases |comps|
  {
    var c := comps[0];
    CleanCons(registry, comps);
    if !Admissible(registry, c) {
      j := 0;
      assert ByName(registry, comps[..0]) == registry;
    } else {
      var rest := comps[1..];
      var j' := FirstFailure(registry[c.name := c], rest);
      j := j' + 1;
      assert comps[..j][0] == c && comps[..j][1..] == rest[..j'];
      CleanCons(registry, comps[..j]);
    }
  }

  /**
   * Failure isolation across the whole initialize(): a bean whose entry
   * registers is in the server afterwards, under its name, whatever the
   * other entries and the other components' beans do, unless a later
   * entry of the same component or a later component reuses that name.
   */
  lemma {:induction false} InitSweepPublishes(registry: map<string, Component>,
                                              server: map<string, MBean>,
                                              comps: seq<Component>, i: nat, k: nat)
    requires Clean(registry, comps)
    requires i < |comps| && comps[i].mbeans.MBeansMap? && k < |comps[i].mbeans.entries|
    requires comps[i].mbeans.entries[k].outcome == Registers
    requires forall m | k < m < |comps[i].mbeans.entries| ::
      comps[i].mbeans.entries[m].objectName != comps[i].mbeans.entries[k].objectName
    requires forall m | i < m < |comps| :: comps[i].mbeans.entries[k].objectName !in Published(comps[m])
    ensures var e, after := comps[i].mbeans.entries[k], InitSweep(registry, server, comps).server;
      e.objectName in after && after[e.objectName] == e.bean
    decreases i
  {
    var c, rest := comps[0], comps[1..];
    CleanCons(registry, comps);
    var e := comps[i].mbeans.entries[k];
    if i == 0 {
      PublishLastWriter(server, c.mbeans.entries, k);
      forall c' | c' in rest ensures e.objectName !in Published(c') {
        var m :| 0 <= m < |rest| && rest[m] == c';
        assert comps[m + 1] == c';
      }
      InitSweepServerFrame(registry[c.name := c], PublishBeans(server, c.mbeans), rest, e.objectName);
    } else {
      assert rest[i - 1] == comps[i];
      assert forall m | i - 1 < m < |rest| :: rest[m] == comps[m + 1];
      InitSweepPublishes(registry[c.name := c], PublishBeans(server, c.mbeans), rest, i - 1, k);
    }
  }

  /**
   * A failed initialize() keeps its registrations, so when the first
   * component was registered (its init() completed and its name was free;
   * a throwing getMBeans() comes after the insertion), running the same
   * sweep again over the registries it left fails on that component,
   * whose name is now taken.
   */
  lemma {:induction false} RetryAfterFailure(registry: map<string, Component>,
                                             server: map<string, MBean>, comps: seq<Component>)
    requires comps != [] && comps[0].init == Completes && comps[0].name !in registry
    requires InitSweep(registry, server, comps).status != Ok
    ensures var r := InitSweep(registry, server, comps);
      InitSweep(r.registry, r.server, comps).status == DuplicateName(comps[0].name)
  {
    var c := comps[0];
    if !c.mbeans.MBeansThrow? {
      InitSweepKeeps(registry[c.name := c], PublishBeans(server, c.mbeans), comps[1..]);
    }
  }
}

=== FILE: wrappers.dfy ===
/** Optional values: the model's stand-in for a Java reference that may be null. */
module Wrappers {
  datatype Option<+T> = None | Some(value: T)
}
